=== FILE: README.md ===
# ApiService decision logic

A functional model of the client-side `ApiService` of a pet-adoption marketplace app.
The modelled code is a Dart class (`lib/services/AuthException.java`) that talks to the backend
over HTTP. This model keeps its pure decision logic:

- how any failure becomes a short user-facing message (`extractErrorMessage`);
- how request headers get the bearer token, or fail with `AuthException` when no token is stored (`_getHeaders`);
- the multipart field maps for creating, updating and searching announcements;
- how each operation classifies a response by status code and decoded body shape;
- the session token store, which only a successful login writes.

Modules:

- `Wrappers` holds `Option` and `Result`.
- `Text` holds Dart's `replaceFirst` with an empty replacement, `join(',')` and `int.toString()`. Each comes with a reference definition or an inverse: first-occurrence splicing, `Split`, `ParseDecimal`.
- `JsonModel` holds decoded JSON values. It also holds the `Runtime` record: `jsonDecode` as an abstract partial parser, `toString()` of non-string values, and the text of the errors the Dart runtime raises.
- `Errors` holds the thrown errors and `ExtractErrorMessage`.
- `Requests` holds headers, field maps and their readers.
- `ApiService` holds the calls, request building, the response handlers and `Execute`. `Execute` runs one call against the token store and a transport function.

Three behaviours of the code that the model keeps as written:

- `extractErrorMessage` removes only the first `Exception: ` before parsing (`lib/services/AuthException.java:48`). The other three markers are removed only when the text is not a JSON object (lines 57-67).
- A JSON object without a usable `detail` gives the fixed fallback `Произошла ошибка`, not the stripped text (lines 51-56).
- A search response of the wrong shape raises `Exception('Expected a list of announcements, got: …')` (line 374). The operation's `catch` then rewraps it through `extractErrorMessage` (line 382).

## Model

| member | source | states |
|---|---|---|
| Errors.ExtractErrorMessage | lib/services/AuthException.java:43-68 | An `AuthException` always gives `Требуется авторизация`, whatever it carries. Otherwise, after the first `Exception: ` is removed, there are four outcomes. (1) A JSON object whose `detail` is an object gives `detail.message`, or the fallback when `message` is missing or null. (2) A non-null non-object `detail` gives its text. (3) A missing or null `detail` gives the fallback, never the raw text. (4) Unparseable text and parsed non-objects both give the marker-stripped text. |
| Errors.StripMarkers | lib/services/AuthException.java:57-67 | Removing the four markers never makes the text longer, and a text with none of them comes back unchanged. |
| Errors.StripLeadingMarker | lib/services/AuthException.java:57-67 | Any one of the four markers in front of marker-free text is removed, leaving exactly that text. |
| Errors.StripInnerMarker | lib/services/AuthException.java:57-58 | `Validate error: ` is removed wherever it stands in otherwise marker-free text, not only at the front. |
| Errors.Describe | lib/services/AuthException.java:48 | `toString()` of `Exception(m)` is `Exception: ` followed by exactly `m`. A runtime error shows its own text, and a response body is used as it is. |
| Errors.PlainExceptionMessage | lib/services/AuthException.java:48-67 | `Exception(m)` with a non-JSON-object, marker-free `m` reads back as exactly `m`. |
| Errors.DetailMessageExample | lib/services/AuthException.java:48-53 | `Exception: {"detail":{"message":"bad size"}}` reads as `bad size`. |
| Errors.PlainTextExample | lib/services/AuthException.java:57-67 | `Exception: plain text` reads as `plain text` when it does not parse. |
| Text.RemoveFirst | lib/services/AuthException.java:48 | Removing the first occurrence of a pattern shortens the text by the pattern's length or leaves its length unchanged. |
| Text.RemoveFirstAtFirstOccurrence | lib/services/AuthException.java:48 | `replaceFirst(p, '')` splices out the leftmost occurrence of `p`, wherever it is, not only a prefix. |
| Text.RemoveFirstWithoutOccurrence | lib/services/AuthException.java:58-61 | When the pattern does not occur, the text is returned unchanged. |
| Text.IndexOf | lib/services/AuthException.java:48 | The scan finds the leftmost match position, and removing the first occurrence splices out exactly that position. When the scan finds nothing, removal leaves the text unchanged. |
| Text.Join | lib/services/AuthException.java:348 | A joined list starts with its first item. |
| Text.JoinSeparators | lib/services/AuthException.java:348-350 | Joining `n >= 1` separator-free items puts exactly `n - 1` separators into the text. |
| Text.JoinCons | lib/services/AuthException.java:348 | Joining `x` in front of a non-empty list is `x`, a separator, then the join of the rest. |
| Text.Split | lib/services/AuthException.java:348 | The reference inverse of `join(',')` returns at least one piece, and no piece contains the separator. |
| Text.SplitJoin | lib/services/AuthException.java:348-350 | Joining a non-empty list of comma-free items with `,` and splitting again gives the list back. |
| Text.JoinSplit | lib/services/AuthException.java:348-350 | Splitting any text at `,` and joining again reproduces it. |
| Text.NatToDecimal | lib/services/AuthException.java:241 | The decimal rendering of a number is non-empty and all digits, with no leading zero: zero is `0`, and any other number starts with a non-zero digit. |
| Text.IntToDecimal | lib/services/AuthException.java:241 | `int.toString()` starts with `-` exactly for negative numbers, is otherwise all digits, and has no leading zero. |
| Text.NatDecimalRoundTrip | lib/services/AuthException.java:241 | The digits of a natural number read back as that number. |
| Text.IntDecimalRoundTrip | lib/services/AuthException.java:241 | `age.toString()`, with a `-` for negatives, parses back to the same integer. |
| Requests.GetHeaders | lib/services/AuthException.java:76-88 | `Content-Type: application/json` is always present. Failure happens exactly when auth is required and no token is stored, and it is `AuthException('Требуется авторизация')`. `Authorization` is present iff auth is required, and its value is `Bearer <token>`. No other key appears. |
| Requests.BearerRoundTrip | lib/services/AuthException.java:84 | The bearer credential in the headers reads back as exactly the stored token. |
| Requests.AnnouncementFields | lib/services/AuthException.java:238-246 | `animal_type` and `gender` are always present. Each optional key is present iff its argument is non-null, with `age` as decimal text. Only the nine known keys can appear. |
| Requests.AnnouncementFieldsRoundTrip | lib/services/AuthException.java:293-301 | Every create/update draft can be read back unchanged from its field map. |
| Requests.JoinedList | lib/services/AuthException.java:348 | A list filter yields a value exactly when the list is non-null and non-empty, and that value is the comma-joined list. |
| Requests.SearchFields | lib/services/AuthException.java:345-351 | No key is required. Each scalar filter is present iff non-null. `breeds`/`keywords` are present iff non-null and non-empty, with the comma-joined value. Only the seven filter keys can appear. |
| Requests.SearchFieldsRoundTrip | lib/services/AuthException.java:345-351 | Search filters with comma-free list items can be read back from the field map, with an empty list read as absent. |
| Requests.SearchFieldsIgnoreEmptyLists | lib/services/AuthException.java:348-350 | A null list filter and an empty list filter produce the same field map. |
| Requests.ImageParts | lib/services/AuthException.java:248-254 | Every image path becomes, in order, a file part under `images`. A null list gives no parts. |
| ApiService.MultipartHeaders | lib/services/AuthException.java:234-236 | The headers of a multipart request are exactly `Authorization: Bearer <token>`. Without a token the call fails with `AuthException`. |
| ApiService.BuildRequest | lib/services/AuthException.java:90-461 | A call fails before any request exists exactly when it needs a token and none is stored. That failure is `AuthException`, except for `markMessagesAsRead`, which fails with `Exception('No token found')`. Otherwise an authenticated request carries the stored token, and login/register carry none. Multipart requests have no `Content-Type` header and carry the field maps and image parts above. `validateImages` sends one `image` part, plus `previous_type` only when a hint is given (lines 198-201). |
| ApiService.RequestRoutes | lib/services/AuthException.java:90-458 | `removeFavorite` and `deleteAnnouncement` use DELETE, the four reads use GET, and every other call uses POST. A call about one announcement addresses that announcement's chat, mark-read, update, favourite or announcement path. |
| ApiService.RequestBodies | lib/services/AuthException.java:90-158 | Login posts its credentials as a form with only the form content type. Register posts them as a JSON object with only the JSON content type. `sendMessage` posts a `message` form and overrides the content type with the form type. `addFavorite` posts `{"announcement_id": id}`. The other non-multipart calls send no body. `getChat`, `addFavorite`, `removeFavorite`, `getFavorites`, `getMyAnnouncements`, `deleteAnnouncement` and `getUserChats` send the `_getHeaders` headers unchanged. |
| ApiService.Rewrap | lib/services/AuthException.java:267-270 | The multipart operations always rethrow a plain `Exception`. A marker-free, non-JSON-object message keeps its text. |
| ApiService.DecodeList | lib/services/AuthException.java:139 | Decoding succeeds exactly when the body parses to a list, and then yields that list. Otherwise it raises the runtime's error for that call site. |
| ApiService.HandleLogin | lib/services/AuthException.java:102-109 | Login succeeds exactly on status 200 with a string `access_token` in an object body, and then returns that token. A non-200 status raises the raw body. |
| ApiService.HandleRegister | lib/services/AuthException.java:125-129 | Success happens exactly on status 200 or 201. Any other status raises the raw body. |
| ApiService.HandleOk | lib/services/AuthException.java:177-179 | Success happens exactly on status 200. Otherwise the call raises the body behind the operation's fixed prefix. |
| ApiService.HandleMyAnnouncements | lib/services/AuthException.java:431-439 | Status 401 gives `AuthException`. Any other non-200 status gives `Exception(extractErrorMessage(body))`. Success happens only on 200 with a list body, and it returns that list. A 200 body that is not a list raises the runtime's error for this call. An `AuthException` comes from status 401 and from nothing else. |
| ApiService.HandleUserChats | lib/services/AuthException.java:464-469 | Success happens exactly on status 200 with a list body. Any non-200 status, 401 included, gives `Exception(extractErrorMessage(body))`. A 200 body that is not a list raises the runtime's error for this call. |
| ApiService.HandleChat | lib/services/AuthException.java:138-143 | Success happens exactly on status 200 with a list body. A non-200 status raises the raw body, and a 200 body that is not a list raises the runtime's error for this call. |
| ApiService.HandleFavorites | lib/services/AuthException.java:418-422 | Success happens exactly on status 200 with a list whose every element is an object. A non-200 status raises the raw body. Any other 200 body raises the runtime's error for this call. |
| ApiService.HandleValidateImages | lib/services/AuthException.java:203-216 | Success happens exactly on status 200 with an object body. Every failure is a plain `Exception`; `ApiService.ValidateImagesRejected` gives its exact text. |
| ApiService.ValidateImagesRejected | lib/services/AuthException.java:208-215 | A non-200 validation raises `Exception(extractErrorMessage(Exception(body)))`. A 200 body that is not an object raises `Exception(extractErrorMessage(e))`, where `e` is the runtime's error for this call. |
| ApiService.HandleAnnouncement | lib/services/AuthException.java:256-270 | Success happens exactly on status 200 with a parseable body, and it returns the decoded record. Every failure is a plain `Exception`, never an `AuthException` or a runtime error; `ApiService.AnnouncementRejected` gives its exact text. |
| ApiService.AnnouncementRejected | lib/services/AuthException.java:261-269 | A non-200 create or update raises `Exception(extractErrorMessage(Exception(body)))`. An unparseable 200 body raises `Exception(extractErrorMessage(e))`, where `e` is the runtime's decode error for this call. |
| ApiService.HandleSearch | lib/services/AuthException.java:361-383 | Success requires status 200 and a body that is a bare list or an object whose `announcements` is that list, and it returns that list. Whenever the body has one of these shapes, that list is the result. Every failure is a plain `Exception`; `ApiService.SearchRejected` gives its exact text. |
| ApiService.SearchRejected | lib/services/AuthException.java:366-382 | A non-200 search raises the body. An unparseable 200 body raises the runtime's decode error, and an `announcements` member that is not a list raises the runtime's cast error. A 200 body that is neither a list nor an object with `announcements` raises `Expected a list of announcements, got: <body>`. Every one of these passes through `extractErrorMessage`. |
| ApiService.SearchShapesAgree | lib/services/AuthException.java:369-372 | A bare list and the same list wrapped under `announcements` decode identically. |
| ApiService.HandleResponse | lib/services/AuthException.java:102-469 | Only status 200 succeeds, except that `register` also accepts 201. Each call succeeds with the kind of value its method returns. `login`, `getChat`, `sendMessage`, `addFavorite`, `removeFavorite` and `getFavorites` raise the raw body on a non-200 status (lines 108, 142, 159-160, 396-397, 407-408, 421). `markMessagesAsRead` and `deleteAnnouncement` put their fixed prefixes in front of it (lines 177-178, 452-453). `getMyAnnouncements` raises `AuthException` on 401 (lines 434-436), and no other response gives an `AuthException`. The multipart calls only raise `Exception`. |
| ApiService.Execute | lib/services/AuthException.java:102-106 | Only a successful login changes the token store, and it stores exactly the token it returns. |
| ApiService.NoTokenNoRequest | lib/services/AuthException.java:78-83 | Without a stored token, every authenticated call fails, leaves the store empty, and gives the same outcome whatever the transport would answer. So no request reaches the transport. |
| ApiService.AuthFailureSources | lib/services/AuthException.java:78-83 | A call ends in `AuthException` exactly when it needs a token, none is stored and it is not `markMessagesAsRead`, or when `getMyAnnouncements` is answered with 401 (lines 434-436). |
| ApiService.LoginThenAuthenticated | lib/services/AuthException.java:102-106 | After a successful login, every authenticated call's request carries the returned token as its bearer credential. |
| ApiService.LoginOutcome | lib/services/AuthException.java:102-109 | A login result that succeeds came from status 200 and is stored. Conversely, status 200 with a string `access_token` returns that token and stores it. A non-200 status raises the raw body and leaves the store unchanged. |

## Left out

- HTTP transport (`http.post/get/delete`, `MultipartRequest.send`, `bytesToString`): it is network I/O. `Execute` takes the transport as a total function from request to response, so transport errors caught by the multipart operations' `catch` are not modelled.
- The base URL from `dotenv` and URI assembly: these are configuration plumbing. Requests name an `Endpoint` value instead of a URL string.
- `SharedPreferences`: this external store becomes an `Option<string>` token. `_clearToken` is private and no operation calls it, so it is not modelled.
- `File`, `MultipartFile.fromPath` and `image.length()`: this is filesystem I/O. Images are their paths.
- `Message.fromJson` and `Announcement.fromJson`: their files are not part of this model. Decoded records are returned as JSON values, so errors those constructors might raise are not modelled.
- The JSON grammar of `jsonDecode`, Dart's `toString()` of non-string values, and the wording of `FormatException`/`TypeError`: this is library code. All three are parameters in the `Runtime` record. The error wording is a function of the failing site (which decode or cast failed) and the body, so different sites may raise different text.
- `debugPrint` logging and `async` sequencing: no effect on results.
- The outer `catch` of `extractErrorMessage`: it fires only if `toString()` itself throws.
- The `?? 'Произошла ошибка'` after the `replaceFirst` chains: `replaceFirst` never returns null, so this code is dead.
- The casting view from `.cast<Map<String, dynamic>>()` in `searchAnnouncements` and `getUserChats` is lazy: element types are checked only when the caller reads an element. The model therefore returns the list unchecked.

=== FILE: api.dfy ===
/** `ApiService`: every operation as a request it builds from its arguments and
    the stored token, and a handler that classifies the response. */
module ApiService {
  import opened Wrappers
  import opened JsonModel
  import opened Errors
  import opened Requests

  const NoTokenMessage := "No token found"
  const MarkReadFailurePrefix := "Failed to mark messages as read: "
  const DeleteFailurePrefix := "Failed to delete announcement: "
  const NotAListPrefix := "Expected a list of announcements, got: "

  datatype Method = Get | Post | Delete

  /** The backend path a request goes to, relative to the base URL. */
  datatype Endpoint =
    | UsersToken
    | UsersRegister
    | ChatOf(id: int)
    | MarkRead(id: int)
    | ValidateImagesPath
    | CreateAnnouncementPath
    | UpdateAnnouncementPath(id: int)
    | SearchAnnouncementsPath
    | FavoritesPath
    | FavoriteOf(id: int)
    | MyAnnouncements
    | AnnouncementOf(id: int)
    | Chats

  datatype Body =
    | NoBody
    | Form(form: map<string, string>)
    | JsonBody(json: Json)
    | Multipart(fields: Fields, files: seq<FilePart>)

  datatype Request = Request(verb: Method, endpoint: Endpoint, headers: Headers, body: Body)

  datatype Response = Response(status: int, body: string)

  /** One public method of `ApiService` with its arguments; images are file paths. */
  datatype Call =
    | Login(username: string, password: string)
    | Register(username: string, email: string, password: string)
    | GetChat(announcementId: int)
    | SendMessage(announcementId: int, message: string)
    | MarkMessagesAsRead(announcementId: int)
    | ValidateImages(image: string, previousType: Option<string>)
    | CreateAnnouncement(draft: AnnouncementDraft, images: Option<seq<string>>)
    | UpdateAnnouncement(announcementId: int, draft: AnnouncementDraft, images: Option<seq<string>>)
    | SearchAnnouncements(query: SearchQuery, images: Option<seq<string>>)
    | AddFavorite(announcementId: int)
    | RemoveFavorite(announcementId: int)
    | GetFavorites
    | GetMyAnnouncements
    | DeleteAnnouncement(announcementId: int)
    | GetUserChats

  /** What a successful call returns. Decoded records are kept as JSON, since
      `Message.fromJson` and `Announcement.fromJson` are not part of this model. */
  datatype Reply =
    | Token(token: string)
    | Done
    | Records(items: seq<Json>)
    | Record(value: Json)
    | Object(members: map<string, Json>)

  predicate RequiresToken(c: Call) {
    !c.Login? && !c.Register?
  }

  predicate IsMultipart(c: Call) {
    c.ValidateImages? || c.CreateAnnouncement? || c.UpdateAnnouncement? || c.SearchAnnouncements?
  }

  /** Headers of a multipart request: `_getHeaders` without its content type. */
  function MultipartHeaders(token: Option<string>): (r: Result<Headers, Error>)
    ensures r.Failure? <==> token.None?
    ensures r.Failure? ==> r.error == AuthException(AuthRequiredMessage)
    ensures r.Success? ==> r.value == map[AuthorizationKey := BearerPrefix + token.value]
  {
    var headers :- GetHeaders(true, token);
    Success(headers - {ContentTypeKey})
  }

  function Authenticated(token: Option<string>, m: Method, e: Endpoint, body: Body): Result<Request, Error> {
    var headers :- GetHeaders(true, token);
    Success(Request(m, e, headers, body))
  }

  function Uploading(token: Option<string>, e: Endpoint, fields: Fields, files: seq<FilePart>): Result<Request, Error> {
    var headers :- MultipartHeaders(token);
    Success(Request(Post, e, headers, Multipart(fields, files)))
  }

  /** The request each call would send, or the error it raises before sending. */
  function BuildRequest(c: Call, token: Option<string>): (r: Result<Request, Error>)
    // every authenticated call fails before any request exists when no token is stored
    ensures r.Failure? <==> RequiresToken(c) && token.None?
    ensures r.Failure? && !c.MarkMessagesAsRead? ==> r.error == AuthException(AuthRequiredMessage)
    ensures r.Failure? && c.MarkMessagesAsRead? ==> r.error == Exception(NoTokenMessage)
    // and otherwise carries the stored token as its bearer credential
    ensures r.Success? && RequiresToken(c) ==> BearerToken(r.value.headers) == Some(token.value)
    ensures r.Success? && !RequiresToken(c) ==> AuthorizationKey !in r.value.headers
    ensures r.Success? && IsMultipart(c) ==> r.value.body.Multipart? && ContentTypeKey !in r.value.headers
    ensures r.Success? && c.CreateAnnouncement? ==> r.value.body == Multipart(AnnouncementFields(c.draft), ImageParts(c.images))
    ensures r.Success? && c.UpdateAnnouncement? ==> r.value.body == Multipart(AnnouncementFields(c.draft), ImageParts(c.images))
    ensures r.Success? && c.SearchAnnouncements? ==> r.value.body == Multipart(SearchFields(c.query), ImageParts(c.images))
    // one `image` part, and `previous_type` only when a hint is given
    ensures r.Success? && c.ValidateImages? ==>
              r.value.body == Multipart(if c.previousType.Some? then map["previous_type" := c.previousType.value] else map[],
                                        [FilePart("image", c.image)])
  {
    BearerValueRoundTrip(token);
    match c
    case Login(u, p) =>
      Success(Request(Post, UsersToken, map[ContentTypeKey := FormContentType],
                      Form(map["username" := u, "password" := p])))
    case Register(u, e, p) =>
      Success(Request(Post, UsersRegister, map[ContentTypeKey := JsonContentType],
                      JsonBody(JObject(map["username" := JString(u), "email" := JString(e), "password" := JString(p)]))))
    case GetChat(id) => Authenticated(token, Get, ChatOf(id), NoBody)
    case SendMessage(id, m) =>
      var headers :- GetHeaders(true, token);
      Success(Request(Post, ChatOf(id), headers[ContentTypeKey := FormContentType], Form(map["message" := m])))
    case MarkMessagesAsRead(id) =>
      if token.None? then Failure(Exception(NoTokenMessage))
      else Success(Request(Post, MarkRead(id),
                           map[ContentTypeKey := JsonContentType, AuthorizationKey := BearerPrefix + token.value],
                           NoBody))
    case ValidateImages(image, previousType) =>
      var fields: Fields := if previousType.Some? then map["previous_type" := previousType.value] else map[];
      Uploading(token, ValidateImagesPath, fields, [FilePart("image", image)])
    case CreateAnnouncement(d, images) =>
      Uploading(token, CreateAnnouncementPath, AnnouncementFields(d), ImageParts(images))
    case UpdateAnnouncement(id, d, images) =>
      Uploading(token, UpdateAnnouncementPath(id), AnnouncementFields(d), ImageParts(images))
    case SearchAnnouncements(q, images) =>
      Uploading(token, SearchAnnouncementsPath, SearchFields(q), ImageParts(images))
    case AddFavorite(id) =>
      Authenticated(token, Post, FavoritesPath, JsonBody(JObject(map["announcement_id" := JInt(id)])))
    case RemoveFavorite(id) => Authenticated(token, Delete, FavoriteOf(id), NoBody)
    case GetFavorites => Authenticated(token, Get, FavoritesPath, NoBody)
    case GetMyAnnouncements => Authenticated(token, Get, MyAnnouncements, NoBody)
    case DeleteAnnouncement(id) => Authenticated(token, Delete, AnnouncementOf(id), NoBody)
    case GetUserChats => Authenticated(token, Get, Chats, NoBody)
  }

  /** Which HTTP verb each call uses and where a call about one announcement
      sends it. */
  lemma RequestRoutes(c: Call, token: Option<string>)
    requires BuildRequest(c, token).Success?
    ensures var req := BuildRequest(c, token).value;
            // reads use GET, removals use DELETE, everything else is a POST
            && req.verb == (if c.RemoveFavorite? || c.DeleteAnnouncement? then Delete
                            else if c.GetChat? || c.GetFavorites? || c.GetMyAnnouncements? || c.GetUserChats? then Get
                            else Post)
            && ((c.GetChat? || c.SendMessage?) ==> req.endpoint == ChatOf(c.announcementId))
            && (c.MarkMessagesAsRead? ==> req.endpoint == MarkRead(c.announcementId))
            && (c.UpdateAnnouncement? ==> req.endpoint == UpdateAnnouncementPath(c.announcementId))
            && (c.RemoveFavorite? ==> req.endpoint == FavoriteOf(c.announcementId))
            && (c.DeleteAnnouncement? ==> req.endpoint == AnnouncementOf(c.announcementId))
  {
  }

  /** The non-multipart bodies: login posts its credentials as a form and
      register as JSON; a message is a form that overrides the JSON content
      type; a favourite is a JSON object holding the announcement id. */
  lemma RequestBodies(c: Call, token: Option<string>)
    requires BuildRequest(c, token).Success?
    ensures var req := BuildRequest(c, token).value;
            && (c.Login? ==>
                  req.body == Form(map["username" := c.username, "password" := c.password])
                  && req.headers == map[ContentTypeKey := FormContentType])
            && (c.Register? ==>
                  req.body == JsonBody(JObject(map["username" := JString(c.username), "email" := JString(c.email),
                                                   "password" := JString(c.password)]))
                  && req.headers == map[ContentTypeKey := JsonContentType])
            && (c.SendMessage? ==>
                  req.body == Form(map["message" := c.message]) && req.headers[ContentTypeKey] == FormContentType)
            && (c.AddFavorite? ==> req.body == JsonBody(JObject(map["announcement_id" := JInt(c.announcementId)])))
            && ((c.GetChat? || c.MarkMessagesAsRead? || c.RemoveFavorite? || c.GetFavorites?
                 || c.GetMyAnnouncements? || c.DeleteAnnouncement? || c.GetUserChats?) ==> req.body == NoBody)
            // the other authenticated calls send `_getHeaders` unchanged
            && ((c.GetChat? || c.AddFavorite? || c.RemoveFavorite? || c.GetFavorites?
                 || c.GetMyAnnouncements? || c.DeleteAnnouncement? || c.GetUserChats?) ==>
                  req.headers == GetHeaders(true, token).value)
  {
  }

  // ----- response handling -----

  /** The error a failed decode or cast of `body` raises at `site`. */
  function DecodeFault(rt: Runtime, site: FaultSite, body: string): Error {
    RuntimeError(rt.fault(site, body))
  }

  /** What the multipart operations throw: their `catch` rewraps every error
      as `Exception(extractErrorMessage(e))`. */
  function Rewrap(rt: Runtime, e: Error): (r: Error)
    ensures r.Exception?
    ensures (e.Exception? && (rt.decode(e.message).None? || !rt.decode(e.message).value.JObject?)
             && HasNoMarker(e.message)) ==> r == e
  {
    if e.Exception? then
      PlainExceptionMessage(rt, e.message);
      Exception(ExtractErrorMessage(Raised(e), rt))
    else Exception(ExtractErrorMessage(Raised(e), rt))
  }

  /** A body that must decode to a list; anything else fails at `site`. */
  function DecodeList(rt: Runtime, site: FaultSite, body: string): (r: Result<seq<Json>, Error>)
    ensures r.Success? <==> rt.decode(body).Some? && rt.decode(body).value.JArray?
    ensures r.Success? ==> rt.decode(body) == Some(JArray(r.value))
    ensures r.Failure? ==> r.error == DecodeFault(rt, site, body)
  {
    match rt.decode(body)
    case Some(JArray(items)) => Success(items)
    case _ => Failure(DecodeFault(rt, site, body))
  }

  /** `login`: 200 with a string `access_token` succeeds with that token;
      nothing else succeeds. */
  function HandleLogin(rt: Runtime, resp: Response): (r: Result<string, Error>)
    ensures resp.status != 200 ==> r == Failure(Exception(resp.body))
    ensures r.Success? ==>
              (resp.status == 200 && rt.decode(resp.body).Some?
               && rt.decode(resp.body).value.JObject?
               && "access_token" in rt.decode(resp.body).value.members
               && rt.decode(resp.body).value.members["access_token"] == JString(r.value))
    ensures (resp.status == 200 && rt.decode(resp.body).Some?
             && rt.decode(resp.body).value.JObject?
             && "access_token" in rt.decode(resp.body).value.members
             && rt.decode(resp.body).value.members["access_token"].JString?) ==>
              r == Success(rt.decode(resp.body).value.members["access_token"].s)
    ensures resp.status == 200 && r.Failure? ==> r.error == DecodeFault(rt, LoginToken, resp.body)
  {
    if resp.status != 200 then Failure(Exception(resp.body))
    else match rt.decode(resp.body)
      case Some(JObject(m)) =>
        if "access_token" in m && m["access_token"].JString? then Success(m["access_token"].s)
        else Failure(DecodeFault(rt, LoginToken, resp.body))
      case _ => Failure(DecodeFault(rt, LoginToken, resp.body))
  }

  /** `register`: 200 and 201 both succeed; anything else raises the body. */
  function HandleRegister(resp: Response): (r: Result<(), Error>)
    ensures r.Success? <==> resp.status == 200 || resp.status == 201
    ensures r.Failure? ==> r.error == Exception(resp.body)
  {
    if resp.status == 200 || resp.status == 201 then Success(()) else Failure(Exception(resp.body))
  }

  /** The shared shape of `sendMessage`, `addFavorite`, `removeFavorite`,
      `markMessagesAsRead` and `deleteAnnouncement`: anything but 200 raises
      the body behind a fixed prefix. */
  function HandleOk(resp: Response, prefix: string): (r: Result<(), Error>)
    ensures r.Success? <==> resp.status == 200
    ensures r.Failure? ==> r.error == Exception(prefix + resp.body)
  {
    if resp.status == 200 then Success(()) else Failure(Exception(prefix + resp.body))
  }

  /** `getMyAnnouncements`: 401 is an authentication failure, distinct from
      every other non-200 status. */
  function HandleMyAnnouncements(rt: Runtime, resp: Response): (r: Result<seq<Json>, Error>)
    ensures resp.status == 401 ==> r == Failure(AuthException(AuthRequiredMessage))
    ensures resp.status != 200 && resp.status != 401 ==>
              r == Failure(Exception(ExtractErrorMessage(Body(resp.body), rt)))
    ensures r.Success? ==> resp.status == 200 && rt.decode(resp.body) == Some(JArray(r.value))
    ensures resp.status == 200 && rt.decode(resp.body).Some? && rt.decode(resp.body).value.JArray? ==> r.Success?
    ensures resp.status == 200 && r.Failure? ==> r.error == DecodeFault(rt, MyAnnouncementsList, resp.body)
    // 401 is the only source of an authentication failure
    ensures r.Failure? && r.error.AuthException? <==> resp.status == 401
  {
    if resp.status == 200 then DecodeList(rt, MyAnnouncementsList, resp.body)
    else if resp.status == 401 then Failure(AuthException(AuthRequiredMessage))
    else Failure(Exception(ExtractErrorMessage(Body(resp.body), rt)))
  }

  /** `getUserChats`: like `getMyAnnouncements`, but 401 is not singled out. */
  function HandleUserChats(rt: Runtime, resp: Response): (r: Result<seq<Json>, Error>)
    ensures resp.status != 200 ==> r == Failure(Exception(ExtractErrorMessage(Body(resp.body), rt)))
    ensures r.Success? <==> resp.status == 200 && rt.decode(resp.body).Some? && rt.decode(resp.body).value.JArray?
    ensures r.Success? ==> rt.decode(resp.body) == Some(JArray(r.value))
    ensures resp.status == 200 && r.Failure? ==> r.error == DecodeFault(rt, UserChatsList, resp.body)
  {
    if resp.status == 200 then DecodeList(rt, UserChatsList, resp.body)
    else Failure(Exception(ExtractErrorMessage(Body(resp.body), rt)))
  }

  /** `getChat`: a 200 body must decode to a list. */
  function HandleChat(rt: Runtime, resp: Response): (r: Result<seq<Json>, Error>)
    ensures resp.status != 200 ==> r == Failure(Exception(resp.body))
    ensures r.Success? <==> resp.status == 200 && rt.decode(resp.body).Some? && rt.decode(resp.body).value.JArray?
    ensures r.Success? ==> rt.decode(resp.body) == Some(JArray(r.value))
    ensures resp.status == 200 && r.Failure? ==> r.error == DecodeFault(rt, ChatList, resp.body)
  {
    if resp.status == 200 then DecodeList(rt, ChatList, resp.body) else Failure(Exception(resp.body))
  }

  predicate AllObjects(items: seq<Json>) {
    forall i :: 0 <= i < |items| ==> items[i].JObject?
  }

  /** `getFavorites`: `List<Map>.from` checks every element eagerly. */
  function HandleFavorites(rt: Runtime, resp: Response): (r: Result<seq<Json>, Error>)
    ensures resp.status != 200 ==> r == Failure(Exception(resp.body))
    ensures r.Success? ==> resp.status == 200 && rt.decode(resp.body) == Some(JArray(r.value)) && AllObjects(r.value)
    ensures (resp.status == 200 && rt.decode(resp.body).Some? && rt.decode(resp.body).value.JArray?
             && AllObjects(rt.decode(resp.body).value.items)) ==> r.Success?
    ensures resp.status == 200 && r.Failure? ==> r.error == DecodeFault(rt, FavoritesList, resp.body)
  {
    if resp.status != 200 then Failure(Exception(resp.body))
    else
      var items :- DecodeList(rt, FavoritesList, resp.body);
      if AllObjects(items) then Success(items) else Failure(DecodeFault(rt, FavoritesList, resp.body))
  }

  /** `validateImages`: a 200 body must decode to an object; every failure is rewrapped. */
  function HandleValidateImages(rt: Runtime, resp: Response): (r: Result<map<string, Json>, Error>)
    ensures r.Success? <==> resp.status == 200 && rt.decode(resp.body).Some? && rt.decode(resp.body).value.JObject?
    ensures r.Success? ==> rt.decode(resp.body) == Some(JObject(r.value))
    ensures r.Failure? ==> r.error.Exception?
  {
    if resp.status != 200 then Failure(Rewrap(rt, Exception(resp.body)))
    else match rt.decode(resp.body)
      case Some(JObject(m)) => Success(m)
      case _ => Failure(Rewrap(rt, DecodeFault(rt, ValidationResult, resp.body)))
  }

  /** A non-200 validation raises the body, and a 200 body that is not an
      object raises the runtime's error; both pass through `extractErrorMessage`. */
  lemma ValidateImagesRejected(rt: Runtime, resp: Response)
    ensures resp.status != 200 ==> HandleValidateImages(rt, resp) == Failure(Rewrap(rt, Exception(resp.body)))
    ensures (resp.status == 200 && !(rt.decode(resp.body).Some? && rt.decode(resp.body).value.JObject?)) ==>
              HandleValidateImages(rt, resp) == Failure(Rewrap(rt, DecodeFault(rt, ValidationResult, resp.body)))
  {
  }

  /** `createAnnouncement` / `updateAnnouncement`: a 200 body is the new record. */
  function HandleAnnouncement(rt: Runtime, resp: Response): (r: Result<Json, Error>)
    ensures r.Success? <==> resp.status == 200 && rt.decode(resp.body).Some?
    ensures r.Success? ==> rt.decode(resp.body) == Some(r.value)
    ensures r.Failure? ==> r.error.Exception?
  {
    if resp.status != 200 then Failure(Rewrap(rt, Exception(resp.body)))
    else if rt.decode(resp.body).Some? then Success(rt.decode(resp.body).value)
    else Failure(Rewrap(rt, DecodeFault(rt, AnnouncementRecord, resp.body)))
  }

  /** The list inside a search response: a bare list, or the `announcements`
      member of an object. */
  predicate IsSearchListing(j: Json, items: seq<Json>) {
    j == JArray(items)
    || (j.JObject? && "announcements" in j.members && j.members["announcements"] == JArray(items))
  }

  /** `searchAnnouncements`: both response shapes normalise to the list;
      anything else is an error, and every error is rewrapped. */
  function HandleSearch(rt: Runtime, resp: Response): (r: Result<seq<Json>, Error>)
    ensures r.Success? ==>
              (resp.status == 200 && rt.decode(resp.body).Some?
               && IsSearchListing(rt.decode(resp.body).value, r.value))
    ensures resp.status == 200 && rt.decode(resp.body).Some? ==>
              forall items :: IsSearchListing(rt.decode(resp.body).value, items) ==> r == Success(items)
    ensures r.Failure? ==> r.error.Exception?
  {
    if resp.status != 200 then Failure(Rewrap(rt, Exception(resp.body)))
    else if rt.decode(resp.body).None? then Failure(Rewrap(rt, DecodeFault(rt, SearchResult, resp.body)))
    else
      var decoded := rt.decode(resp.body).value;
      if decoded.JArray? then Success(decoded.items)
      else if decoded.JObject? && "announcements" in decoded.members then
        var listing := decoded.members["announcements"];
        if listing.JArray? then Success(listing.items) else Failure(Rewrap(rt, DecodeFault(rt, SearchListing, resp.body)))
      else Failure(Rewrap(rt, Exception(NotAListPrefix + resp.body)))
  }

  /** A list of records reads the same whether the server sends it bare or
      wrapped under `announcements`. */
  lemma SearchShapesAgree(rt: Runtime, body1: string, body2: string, items: seq<Json>, extra: map<string, Json>)
    requires rt.decode(body1) == Some(JArray(items))
    requires rt.decode(body2) == Some(JObject(extra["announcements" := JArray(items)]))
    ensures HandleSearch(rt, Response(200, body1)) == Success(items)
    ensures HandleSearch(rt, Response(200, body2)) == Success(items)
  {
    assert IsSearchListing(rt.decode(body1).value, items);
    assert IsSearchListing(rt.decode(body2).value, items);
  }

  /** A non-200 create or update raises the body, and an unparseable 200 body
      raises the runtime's decode error; both pass through `extractErrorMessage`. */
  lemma AnnouncementRejected(rt: Runtime, resp: Response)
    ensures resp.status != 200 ==> HandleAnnouncement(rt, resp) == Failure(Rewrap(rt, Exception(resp.body)))
    ensures resp.status == 200 && rt.decode(resp.body).None? ==>
              HandleAnnouncement(rt, resp) == Failure(Rewrap(rt, DecodeFault(rt, AnnouncementRecord, resp.body)))
  {
  }

  /** Every way a search fails, each passed through `extractErrorMessage`: a
      non-200 status raises the body, an unparseable body or a non-list
      `announcements` raises the runtime's error, and any other shape raises
      the `Expected a list` error. */
  lemma SearchRejected(rt: Runtime, resp: Response)
    ensures resp.status != 200 ==> HandleSearch(rt, resp) == Failure(Rewrap(rt, Exception(resp.body)))
    ensures (resp.status == 200 && rt.decode(resp.body).Some? && !rt.decode(resp.body).value.JArray?
             && !(rt.decode(resp.body).value.JObject? && "announcements" in rt.decode(resp.body).value.members)) ==>
              HandleSearch(rt, resp) == Failure(Rewrap(rt, Exception(NotAListPrefix + resp.body)))
    ensures resp.status == 200 && rt.decode(resp.body).None? ==>
              HandleSearch(rt, resp) == Failure(Rewrap(rt, DecodeFault(rt, SearchResult, resp.body)))
    ensures (resp.status == 200 && rt.decode(resp.body).Some? && rt.decode(resp.body).value.JObject?
             && "announcements" in rt.decode(resp.body).value.members
             && !rt.decode(resp.body).value.members["announcements"].JArray?) ==>
              HandleSearch(rt, resp) == Failure(Rewrap(rt, DecodeFault(rt, SearchListing, resp.body)))
  {
  }

  /** Classifies a response for the call that sent the request. */
  function HandleResponse(c: Call, rt: Runtime, resp: Response): (r: Result<Reply, Error>)
    // only 200 succeeds, except for `register`, which also accepts 201
    ensures r.Success? && !c.Register? ==> resp.status == 200
    ensures c.Register? ==> (r.Success? <==> resp.status == 200 || resp.status == 201)
    // each call succeeds with the kind of value its Dart method returns
    ensures r.Success? && c.Login? ==> r.value.Token?
    ensures (r.Success? && (c.Register? || c.SendMessage? || c.MarkMessagesAsRead? || c.AddFavorite?
             || c.RemoveFavorite? || c.DeleteAnnouncement?)) ==> r.value == Done
    ensures (r.Success? && (c.GetChat? || c.SearchAnnouncements? || c.GetFavorites?
             || c.GetMyAnnouncements? || c.GetUserChats?)) ==> r.value.Records?
    ensures r.Success? && (c.CreateAnnouncement? || c.UpdateAnnouncement?) ==> r.value.Record?
    ensures r.Success? && c.ValidateImages? ==> r.value.Object?
    // a rejected status raises the body, behind the call's own prefix
    ensures (resp.status != 200 && (c.Login? || c.GetChat? || c.SendMessage? || c.AddFavorite?
             || c.RemoveFavorite? || c.GetFavorites?)) ==> r == Failure(Exception(resp.body))
    ensures c.MarkMessagesAsRead? && resp.status != 200 ==> r == Failure(Exception(MarkReadFailurePrefix + resp.body))
    ensures c.DeleteAnnouncement? && resp.status != 200 ==> r == Failure(Exception(DeleteFailurePrefix + resp.body))
    ensures c.GetMyAnnouncements? && resp.status == 401 ==> r == Failure(AuthException(AuthRequiredMessage))
    ensures r.Failure? && r.error.AuthException? ==> c.GetMyAnnouncements? && resp.status == 401
    // the multipart calls only ever raise `Exception`
    ensures r.Failure? && IsMultipart(c) ==> r.error.Exception?
  {
    assert "" + resp.body == resp.body;
    match c
    case Login(_, _) => var t :- HandleLogin(rt, resp); Success(Token(t))
    case Register(_, _, _) => var _ :- HandleRegister(resp); Success(Done)
    case GetChat(_) => var items :- HandleChat(rt, resp); Success(Records(items))
    case SendMessage(_, _) => var _ :- HandleOk(resp, ""); Success(Done)
    case MarkMessagesAsRead(_) => var _ :- HandleOk(resp, MarkReadFailurePrefix); Success(Done)
    case ValidateImages(_, _) => var m :- HandleValidateImages(rt, resp); Success(Object(m))
    case CreateAnnouncement(_, _) => var j :- HandleAnnouncement(rt, resp); Success(Record(j))
    case UpdateAnnouncement(_, _, _) => var j :- HandleAnnouncement(rt, resp); Success(Record(j))
    case SearchAnnouncements(_, _) => var items :- HandleSearch(rt, resp); Success(Records(items))
    case AddFavorite(_) => var _ :- HandleOk(resp, ""); Success(Done)
    case RemoveFavorite(_) => var _ :- HandleOk(resp, ""); Success(Done)
    case GetFavorites => var items :- HandleFavorites(rt, resp); Success(Records(items))
    case GetMyAnnouncements => var items :- HandleMyAnnouncements(rt, resp); Success(Records(items))
    case DeleteAnnouncement(_) => var _ :- HandleOk(resp, DeleteFailurePrefix); Success(Done)
    case GetUserChats => var items :- HandleUserChats(rt, resp); Success(Records(items))
  }

  /** One call against the token store: build the request, send it through the
      transport, classify the response; a successful login stores its token. */
  function Execute(c: Call, store: Option<string>, send: Request -> Response, rt: Runtime)
    : (out: (Result<Reply, Error>, Option<string>))
    ensures out.1 != store ==> c.Login? && out.0.Success?
    ensures c.Login? && out.0.Success? ==> out.0.value.Token? && out.1 == Some(out.0.value.token)
  {
    match BuildRequest(c, store)
    case Failure(e) => (Failure(e), store)
    case Success(req) =>
      var result := HandleResponse(c, rt, send(req));
      if c.Login? && result.Success? then (result, Some(result.value.token)) else (result, store)
  }

  /** Without a stored token an authenticated call fails the same way whatever
      the transport would answer: no request reaches it. */
  lemma NoTokenNoRequest(c: Call, send1: Request -> Response, send2: Request -> Response, rt: Runtime)
    requires RequiresToken(c)
    ensures Execute(c, None, send1, rt) == Execute(c, None, send2, rt)
    ensures Execute(c, None, send1, rt).0.Failure?
    ensures Execute(c, None, send1, rt).1.None?
  {
  }

  /** An authentication failure has exactly two sources: an authenticated call
      made without a stored token (other than `markMessagesAsRead`, which
      raises a plain `Exception`), and `getMyAnnouncements` answered with 401. */
  lemma AuthFailureSources(c: Call, store: Option<string>, send: Request -> Response, rt: Runtime)
    ensures var out := Execute(c, store, send, rt);
            (out.0.Failure? && out.0.error.AuthException?) <==>
              ((RequiresToken(c) && !c.MarkMessagesAsRead? && store.None?)
               || (c.GetMyAnnouncements? && store.Some? && send(BuildRequest(c, store).value).status == 401))
  {
  }

  /** After a successful login every authenticated call carries the returned
      token as its bearer credential. */
  lemma LoginThenAuthenticated(u: string, p: string, store: Option<string>, send: Request -> Response,
                               rt: Runtime, next: Call)
    requires Execute(Login(u, p), store, send, rt).0.Success?
    requires RequiresToken(next)
    ensures var (result, store') := Execute(Login(u, p), store, send, rt);
            BuildRequest(next, store').Success?
            && BearerToken(BuildRequest(next, store').value.headers) == Some(result.value.token)
  {
  }

  /** Login succeeds exactly on status 200 with a string `access_token`, which
      it both returns and stores; any other status raises the body and leaves
      the store alone. */
  lemma LoginOutcome(u: string, p: string, store: Option<string>, send: Request -> Response, rt: Runtime)
    ensures var resp := send(BuildRequest(Login(u, p), store).value);
            var (result, store') := Execute(Login(u, p), store, send, rt);
            && (result.Success? ==> resp.status == 200 && store' == Some(result.value.token))
            && (resp.status != 200 ==> result == Failure(Exception(resp.body)) && store' == store)
            && ((resp.status == 200 && rt.decode(resp.body).Some? && rt.decode(resp.body).value.JObject?
                 && "access_token" in rt.decode(resp.body).value.members
                 && rt.decode(resp.body).value.members["access_token"].JString?) ==>
                  var t := rt.decode(resp.body).value.members["access_token"].s;
                  result == Success(Token(t)) && store' == Some(t))
  {
  }
}

=== FILE: errors.dfy ===
/** The errors the client raises and the helper that turns any failure into a
    short user-facing message. */
module Errors {
  import opened Wrappers
  import opened Text
  import opened JsonModel

  const AuthRequiredMessage := "Требуется авторизация"
  const FallbackMessage := "Произошла ошибка"

  const ExceptionMarker := "Exception: "
  const ValidateMarker := "Validate error: "
  const CreateMarker := "Create error: "
  const SearchMarker := "Search error: "

  /** What a failed operation throws: the client's own `AuthException`, a plain
      `Exception(message)`, or an error raised by the Dart runtime itself
      (`FormatException`, `TypeError`) carrying its `toString()` text. */
  datatype Error =
    | AuthException(message: string)
    | Exception(message: string)
    | RuntimeError(text: string)

  /** The `dynamic` argument of `extractErrorMessage`: a caught error, or a
      response body passed in directly as a `String`. */
  datatype ErrorValue = Raised(error: Error) | Body(text: string)

  /** `toString()` of the argument. */
  function Describe(v: ErrorValue): (text: string)
    // a plain exception's text is its message behind the `Exception: ` marker
    ensures v.Raised? && v.error.Exception? ==>
              ExceptionMarker <= text && text[|ExceptionMarker|..] == v.error.message
    ensures v.Raised? && v.error.RuntimeError? ==> text == v.error.text
    ensures v.Body? ==> text == v.text
  {
    match v
    case Raised(AuthException(_)) => "Instance of 'AuthException'"
    case Raised(Exception(m)) => ExceptionMarker + m
    case Raised(RuntimeError(t)) => t
    case Body(t) => t
  }

  /** The text `extractErrorMessage` tries to parse: the description with the
      first `Exception: ` removed. */
  function Payload(v: ErrorValue): string {
    RemoveFirst(Describe(v), ExceptionMarker)
  }

  /** Removes the first occurrence of each known marker, in a fixed order; a
      text carrying none of them passes through unchanged. */
  function StripMarkers(s: string): (r: string)
    ensures |r| <= |s|
    ensures HasNoMarker(s) ==> r == s
  {
    RemoveFirstKeepsUnmatched(s, ValidateMarker);
    RemoveFirstKeepsUnmatched(s, CreateMarker);
    RemoveFirstKeepsUnmatched(s, SearchMarker);
    RemoveFirstKeepsUnmatched(s, ExceptionMarker);
    RemoveFirst(RemoveFirst(RemoveFirst(RemoveFirst(s, ValidateMarker), CreateMarker), SearchMarker), ExceptionMarker)
  }

  ghost predicate HasNoMarker(s: string) {
    !Contains(s, ValidateMarker) && !Contains(s, CreateMarker)
    && !Contains(s, SearchMarker) && !Contains(s, ExceptionMarker)
  }

  /** A marker in front of marker-free text is removed, whichever of the four
      it is: no marker starts with a character another marker contains, so
      the other three removals leave the text alone. */
  lemma StripLeadingMarker(marker: string, m: string)
    requires marker == ValidateMarker || marker == CreateMarker || marker == SearchMarker || marker == ExceptionMarker
    requires HasNoMarker(m)
    ensures StripMarkers(marker + m) == m
  {
    RemoveFirstKeepsUnmatched(m, CreateMarker);
    RemoveFirstKeepsUnmatched(m, SearchMarker);
    RemoveFirstKeepsUnmatched(m, ExceptionMarker);
    RemoveLeading(marker, m);
    if marker == CreateMarker {
      KeepBehind(marker, m, ValidateMarker);
    } else if marker == SearchMarker {
      KeepBehind(marker, m, ValidateMarker);
      KeepBehind(marker, m, CreateMarker);
    } else if marker == ExceptionMarker {
      KeepBehind(marker, m, ValidateMarker);
      KeepBehind(marker, m, CreateMarker);
      KeepBehind(marker, m, SearchMarker);
    }
  }

  /** A pattern whose first character does not occur in `a` cannot straddle
      or start inside `a`: any occurrence in `a + b` lies wholly in `b`. */
  lemma OccurrenceBehindPrefix(a: string, b: string, p: string, j: int)
    requires |p| > 0 && p[0] !in a
    requires OccursAt(a + b, p, j)
    ensures j >= |a| && OccursAt(b, p, j - |a|)
  {
    assert (a + b)[j..j + |p|][0] == (a + b)[j];
    assert (a + b)[j..j + |p|] == b[j - |a|..j - |a| + |p|];
  }

  /** So such a pattern occurs in `a + b` only if it occurs in `b`. */
  lemma AbsentBehindPrefix(a: string, b: string, p: string)
    requires |p| > 0 && p[0] !in a
    requires !Contains(b, p)
    ensures !Contains(a + b, p)
  {
    if Contains(a + b, p) {
      var j :| OccursAt(a + b, p, j);
      OccurrenceBehindPrefix(a, b, p, j);
    }
  }
  /** A `Validate error: ` marker anywhere in otherwise marker-free text is
      removed, not only one at the front. */
  lemma StripInnerMarker(a: string, m: string)
    requires HasNoMarker(a + m)
    ensures StripMarkers(a + ValidateMarker + m) == a + m
  {
    var s := a + ValidateMarker + m;
    assert s[|a|..|a| + |ValidateMarker|] == ValidateMarker;
    forall j | 0 <= j < |a|
      ensures !OccursAt(s, ValidateMarker, j)
    {
      if OccursAt(s, ValidateMarker, j) {
        ValidateBeforeMarker(a, m, j);
      }
    }
    RemoveFirstAtFirstOccurrence(s, ValidateMarker, |a|);
    assert s[..|a|] == a;
    assert s[|a| + |ValidateMarker|..] == m;
    RemoveFirstKeepsUnmatched(a + m, CreateMarker);
    RemoveFirstKeepsUnmatched(a + m, SearchMarker);
    RemoveFirstKeepsUnmatched(a + m, ExceptionMarker);
  }

  /** `V` starts `Validate error: ` and appears nowhere else in it, so an
      occurrence that starts inside `a` cannot reach the inserted marker: it
      lies wholly in `a`. */
  lemma ValidateBeforeMarker(a: string, m: string, j: int)
    requires 0 <= j < |a| && OccursAt(a + ValidateMarker + m, ValidateMarker, j)
    ensures OccursAt(a + m, ValidateMarker, j)
  {
    var s := a + ValidateMarker + m;
    assert s[|a|] == 'V';
    assert s[j..j + |ValidateMarker|][|ValidateMarker| - 1] == s[j + |ValidateMarker| - 1];
    assert s[j..j + |ValidateMarker|] == (a + m)[j..j + |ValidateMarker|];
  }

  lemma RemoveLeading(marker: string, m: string)
    ensures RemoveFirst(marker + m, marker) == m
  {
    assert marker <= marker + m;
    assert (marker + m)[|marker|..] == m;
  }

  lemma KeepBehind(marker: string, m: string, q: string)
    requires |q| > 0 && q[0] !in marker && !Contains(m, q)
    ensures RemoveFirst(marker + m, q) == marker + m
  {
    AbsentBehindPrefix(marker, m, q);
    RemoveFirstKeepsUnmatched(marker + m, q);
  }


  /** The message read from a decoded error object: `detail.message` when
      `detail` is an object, otherwise `detail` itself; null or missing gives
      the fallback. */
  function DetailMessage(rt: Runtime, members: map<string, Json>): string {
    if "detail" in members && members["detail"].JObject? then
      var inner := members["detail"].members;
      if "message" in inner && !inner["message"].JNull? then Stringify(rt, inner["message"])
      else FallbackMessage
    else if "detail" in members && !members["detail"].JNull? then Stringify(rt, members["detail"])
    else FallbackMessage
  }

  /** `extractErrorMessage`. */
  function ExtractErrorMessage(v: ErrorValue, rt: Runtime): (msg: string)
    // an AuthException always reads as the fixed message, whatever it carries
    ensures v.Raised? && v.error.AuthException? ==> msg == AuthRequiredMessage
    // an object whose detail is an object: detail.message, or the fallback
    ensures !(v.Raised? && v.error.AuthException?) && rt.decode(Payload(v)).Some?
            && rt.decode(Payload(v)).value.JObject?
            && "detail" in rt.decode(Payload(v)).value.members
            && rt.decode(Payload(v)).value.members["detail"].JObject? ==>
              var inner := rt.decode(Payload(v)).value.members["detail"].members;
              msg == if "message" in inner && !inner["message"].JNull?
                     then Stringify(rt, inner["message"]) else FallbackMessage
    // an object whose detail is a non-null scalar or list: its text
    ensures !(v.Raised? && v.error.AuthException?) && rt.decode(Payload(v)).Some?
            && rt.decode(Payload(v)).value.JObject?
            && "detail" in rt.decode(Payload(v)).value.members
            && !rt.decode(Payload(v)).value.members["detail"].JObject?
            && !rt.decode(Payload(v)).value.members["detail"].JNull? ==>
              msg == Stringify(rt, rt.decode(Payload(v)).value.members["detail"])
    // an object with no usable detail never leaks the raw text
    ensures !(v.Raised? && v.error.AuthException?) && rt.decode(Payload(v)).Some?
            && rt.decode(Payload(v)).value.JObject?
            && ("detail" !in rt.decode(Payload(v)).value.members
                || rt.decode(Payload(v)).value.members["detail"].JNull?) ==>
              msg == FallbackMessage
    // unparseable text and parsed non-objects are treated alike
    ensures !(v.Raised? && v.error.AuthException?)
            && (rt.decode(Payload(v)).None? || !rt.decode(Payload(v)).value.JObject?) ==>
              msg == StripMarkers(Payload(v))
  {
    if v.Raised? && v.error.AuthException? then AuthRequiredMessage
    else
      var text := Payload(v);
      match rt.decode(text)
      case Some(JObject(members)) => DetailMessage(rt, members)
      case Some(_) => StripMarkers(text)
      case None => StripMarkers(text)
  }

  /** A plain exception whose message is not JSON and carries no marker reads
      back as exactly that message. */
  lemma PlainExceptionMessage(rt: Runtime, m: string)
    ensures (rt.decode(m).None? || !rt.decode(m).value.JObject?) && HasNoMarker(m) ==>
              ExtractErrorMessage(Raised(Exception(m)), rt) == m
  {
    assert ExceptionMarker <= ExceptionMarker + m;
    assert (ExceptionMarker + m)[|ExceptionMarker|..] == m;
  }

  /** `Exception: {"detail":{"message":"bad size"}}` reads as `bad size`. */
  lemma DetailMessageExample(rt: Runtime, m: string)
    requires rt.decode(m) == Some(JObject(map["detail" := JObject(map["message" := JString("bad size")])]))
    ensures ExtractErrorMessage(Raised(Exception(m)), rt) == "bad size"
  {
    assert ExceptionMarker <= ExceptionMarker + m;
    assert (ExceptionMarker + m)[|ExceptionMarker|..] == m;
  }

  /** `Exception: plain text` reads as `plain text` when it does not parse. */
  lemma PlainTextExample(rt: Runtime)
    requires rt.decode("plain text").None?
    ensures ExtractErrorMessage(Raised(Exception("plain text")), rt) == "plain text"
  {
    PlainExceptionMessage(rt, "plain text");
    assert HasNoMarker("plain text");
  }
}

=== FILE: json.dfy ===
/** Decoded JSON values and the library services the client uses on them. */
module JsonModel {
  import opened Wrappers

  /** A value produced by `jsonDecode`: objects are `Map<String, dynamic>`,
      arrays are `List<dynamic>`. */
  datatype Json =
    | JNull
    | JBool(b: bool)
    | JInt(i: int)
    | JDouble(d: real)
    | JString(s: string)
    | JArray(items: seq<Json>)
    | JObject(members: map<string, Json>)

  /** Where in the client a decode or cast of a response body can fail. Each
      site fails in its own way: a `FormatException` from `jsonDecode`, or a
      `TypeError` from the cast or lookup that site performs. */
  datatype FaultSite =
    | LoginToken           // the string cast of the `access_token` member in `login`
    | ChatList             // the `List<dynamic>` binding in `getChat`
    | ValidationResult     // the `Map` result of `validateImages`
    | AnnouncementRecord   // the decoded body of `createAnnouncement` / `updateAnnouncement`
    | SearchResult         // the decoded body of `searchAnnouncements`
    | SearchListing        // the list cast of the `announcements` member in `searchAnnouncements`
    | FavoritesList        // the copy into a list of maps in `getFavorites`
    | MyAnnouncementsList  // the `List<dynamic>` binding in `getMyAnnouncements`
    | UserChatsList        // the `List<dynamic>` binding in `getUserChats`

  /** The library behaviour the client calls but does not define.
      `decode` is `jsonDecode` (None when it throws), `show` is `toString()` of a
      decoded value that is not a string, and `fault` is the text of the error the
      Dart runtime raises when decoding or casting a response body fails at the
      given site. */
  datatype Runtime = Runtime(
    decode: string -> Option<Json>,
    show: Json -> string,
    fault: (FaultSite, string) -> string)

  /** `toString()` of a non-null decoded value: a JSON string is its own text. */
  function Stringify(rt: Runtime, j: Json): string {
    if j.JString? then j.s else rt.show(j)
  }
}

=== FILE: requests.dfy ===
/** The request descriptors the client builds: headers, multipart field maps
    and file parts. */
module Requests {
  import opened Wrappers
  import opened Text
  import opened Errors

  const ContentTypeKey := "Content-Type"
  const AuthorizationKey := "Authorization"
  const JsonContentType := "application/json"
  const FormContentType := "application/x-www-form-urlencoded"
  const BearerPrefix := "Bearer "

  type Headers = map<string, string>
  type Fields = map<string, string>

  /** `_getHeaders`: always JSON content type; with `requiresAuth` the stored
      token is required and attached as a bearer credential. */
  function GetHeaders(requiresAuth: bool, token: Option<string>): (r: Result<Headers, Error>)
    ensures r.Failure? <==> requiresAuth && token.None?
    ensures r.Failure? ==> r.error == AuthException(AuthRequiredMessage)
    ensures r.Success? ==> ContentTypeKey in r.value && r.value[ContentTypeKey] == JsonContentType
    ensures r.Success? ==> (AuthorizationKey in r.value <==> requiresAuth)
    ensures r.Success? && requiresAuth ==> r.value[AuthorizationKey] == BearerPrefix + token.value
    ensures r.Success? ==> r.value.Keys <= {ContentTypeKey, AuthorizationKey}
  {
    var headers := map[ContentTypeKey := JsonContentType];
    if !requiresAuth then Success(headers)
    else match token
      case None => Failure(AuthException(AuthRequiredMessage))
      case Some(t) => Success(headers[AuthorizationKey := BearerPrefix + t])
  }

  /** The token a server reads back from a bearer `Authorization` header. */
  function BearerToken(headers: Headers): Option<string> {
    if AuthorizationKey in headers && BearerPrefix <= headers[AuthorizationKey]
    then Some(headers[AuthorizationKey][|BearerPrefix|..])
    else None
  }

  lemma BearerValueRoundTrip(token: Option<string>)
    ensures token.Some? ==> BearerPrefix <= BearerPrefix + token.value
    ensures token.Some? ==> (BearerPrefix + token.value)[|BearerPrefix|..] == token.value
  {
  }

  /** The credential attached to an authenticated request is exactly the stored token. */
  lemma BearerRoundTrip(token: string)
    ensures GetHeaders(true, Some(token)).Success?
    ensures BearerToken(GetHeaders(true, Some(token)).value) == Some(token)
  {
    BearerValueRoundTrip(Some(token));
  }

  // ----- multipart fields -----

  function DecimalOf(n: Option<int>): (r: Option<string>)
    ensures r.Some? <==> n.Some?
  {
    if n.Some? then Some(IntToDecimal(n.value)) else None
  }

  /** The arguments of `createAnnouncement` / `updateAnnouncement` that become fields. */
  datatype AnnouncementDraft = AnnouncementDraft(
    animalType: string,
    gender: string,
    name: Option<string>,
    age: Option<int>,
    breed: Option<string>,
    color: Option<string>,
    keywords: Option<string>,
    description: Option<string>,
    location: Option<string>)

  const AnnouncementKeys: set<string> :=
    {"animal_type", "gender", "name", "age", "breed", "color", "keywords", "description", "location"}

  /** The value sent under `key`, if any: the required keys always, each
      optional key when its argument is non-null, `age` as decimal text. */
  function AnnouncementValue(d: AnnouncementDraft, key: string): Option<string> {
    if key == "animal_type" then Some(d.animalType)
    else if key == "gender" then Some(d.gender)
    else if key == "name" then d.name
    else if key == "age" then DecimalOf(d.age)
    else if key == "breed" then d.breed
    else if key == "color" then d.color
    else if key == "keywords" then d.keywords
    else if key == "description" then d.description
    else if key == "location" then d.location
    else None
  }

  /** Required keys always, each optional key iff its argument is non-null. */
  function AnnouncementFields(d: AnnouncementDraft): (f: Fields)
    ensures "animal_type" in f && f["animal_type"] == d.animalType
    ensures "gender" in f && f["gender"] == d.gender
    ensures ("name" in f <==> d.name.Some?) && (d.name.Some? ==> f["name"] == d.name.value)
    ensures ("age" in f <==> d.age.Some?) && (d.age.Some? ==> f["age"] == IntToDecimal(d.age.value))
    ensures ("breed" in f <==> d.breed.Some?) && (d.breed.Some? ==> f["breed"] == d.breed.value)
    ensures ("color" in f <==> d.color.Some?) && (d.color.Some? ==> f["color"] == d.color.value)
    ensures ("keywords" in f <==> d.keywords.Some?) && (d.keywords.Some? ==> f["keywords"] == d.keywords.value)
    ensures ("description" in f <==> d.description.Some?)
            && (d.description.Some? ==> f["description"] == d.description.value)
    ensures ("location" in f <==> d.location.Some?) && (d.location.Some? ==> f["location"] == d.location.value)
    ensures f.Keys <= AnnouncementKeys
  {
    map key | key in AnnouncementKeys && AnnouncementValue(d, key).Some? :: AnnouncementValue(d, key).value
  }

  function Lookup(fields: Fields, key: string): Option<string> {
    if key in fields then Some(fields[key]) else None
  }

  /** Reads a draft back from a field map, as the receiving server would. */
  function ReadAnnouncementFields(f: Fields): Option<AnnouncementDraft> {
    if "animal_type" !in f || "gender" !in f then None
    else if "age" in f && ParseDecimal(f["age"]).None? then None
    else Some(AnnouncementDraft(
      f["animal_type"], f["gender"], Lookup(f, "name"),
      if "age" in f then ParseDecimal(f["age"]) else None,
      Lookup(f, "breed"), Lookup(f, "color"), Lookup(f, "keywords"),
      Lookup(f, "description"), Lookup(f, "location")))
  }

  /** Every draft survives the trip through the multipart field map. */
  lemma AnnouncementFieldsRoundTrip(d: AnnouncementDraft)
    ensures ReadAnnouncementFields(AnnouncementFields(d)) == Some(d)
  {
    if d.age.Some? {
      IntDecimalRoundTrip(d.age.value);
    }
  }

  /** The optional filters of `searchAnnouncements`. */
  datatype SearchQuery = SearchQuery(
    animalType: Option<string>,
    gender: Option<string>,
    age: Option<int>,
    breeds: Option<seq<string>>,
    color: Option<string>,
    keywords: Option<seq<string>>,
    location: Option<string>)

  const SearchKeys: set<string> :=
    {"animal_type", "gender", "age", "breeds", "color", "keywords", "location"}

  /** A list filter is sent only when non-null and non-empty, comma-joined. */
  function JoinedList(xs: Option<seq<string>>): (r: Option<string>)
    ensures r.Some? <==> xs.Some? && |xs.value| > 0
    ensures r.Some? ==> r.value == Join(xs.value, ',')
  {
    if xs.Some? && |xs.value| > 0 then Some(Join(xs.value, ',')) else None
  }

  /** The value sent under `key`, if any. */
  function SearchValue(q: SearchQuery, key: string): Option<string> {
    if key == "animal_type" then q.animalType
    else if key == "gender" then q.gender
    else if key == "age" then DecimalOf(q.age)
    else if key == "breeds" then JoinedList(q.breeds)
    else if key == "color" then q.color
    else if key == "keywords" then JoinedList(q.keywords)
    else if key == "location" then q.location
    else None
  }

  function SearchFields(q: SearchQuery): (f: Fields)
    ensures ("animal_type" in f <==> q.animalType.Some?)
            && (q.animalType.Some? ==> f["animal_type"] == q.animalType.value)
    ensures ("gender" in f <==> q.gender.Some?) && (q.gender.Some? ==> f["gender"] == q.gender.value)
    ensures ("age" in f <==> q.age.Some?) && (q.age.Some? ==> f["age"] == IntToDecimal(q.age.value))
    ensures ("breeds" in f <==> q.breeds.Some? && |q.breeds.value| > 0)
            && ("breeds" in f ==> f["breeds"] == Join(q.breeds.value, ','))
    ensures ("color" in f <==> q.color.Some?) && (q.color.Some? ==> f["color"] == q.color.value)
    ensures ("keywords" in f <==> q.keywords.Some? && |q.keywords.value| > 0)
            && ("keywords" in f ==> f["keywords"] == Join(q.keywords.value, ','))
    ensures ("location" in f <==> q.location.Some?) && (q.location.Some? ==> f["location"] == q.location.value)
    ensures f.Keys <= SearchKeys
  {
    map key | key in SearchKeys && SearchValue(q, key).Some? :: SearchValue(q, key).value
  }

  /** An empty list filter means the same as no filter. */
  function NormalizeQuery(q: SearchQuery): SearchQuery {
    q.(breeds := if q.breeds.Some? && |q.breeds.value| == 0 then None else q.breeds,
       keywords := if q.keywords.Some? && |q.keywords.value| == 0 then None else q.keywords)
  }

  predicate CommaFree(xs: Option<seq<string>>) {
    xs.Some? ==> forall i :: 0 <= i < |xs.value| ==> ',' !in xs.value[i]
  }

  function SplitList(f: Fields, key: string): Option<seq<string>> {
    if key in f then Some(Split(f[key], ',')) else None
  }

  /** Reads a query back from a field map, as the receiving server would. */
  function ReadSearchFields(f: Fields): Option<SearchQuery> {
    if "age" in f && ParseDecimal(f["age"]).None? then None
    else Some(SearchQuery(
      Lookup(f, "animal_type"), Lookup(f, "gender"),
      if "age" in f then ParseDecimal(f["age"]) else None,
      SplitList(f, "breeds"), Lookup(f, "color"), SplitList(f, "keywords"),
      Lookup(f, "location")))
  }

  /** Search filters whose list items hold no comma survive the field map,
      up to treating an empty list as absent. */
  lemma SearchFieldsRoundTrip(q: SearchQuery)
    requires CommaFree(q.breeds) && CommaFree(q.keywords)
    ensures ReadSearchFields(SearchFields(q)) == Some(NormalizeQuery(q))
  {
    if q.age.Some? {
      IntDecimalRoundTrip(q.age.value);
    }
    if q.breeds.Some? && |q.breeds.value| > 0 {
      SplitJoin(q.breeds.value, ',');
    }
    if q.keywords.Some? && |q.keywords.value| > 0 {
      SplitJoin(q.keywords.value, ',');
    }
  }

  /** Null and empty list filters produce the same request. */
  lemma SearchFieldsIgnoreEmptyLists(q: SearchQuery)
    ensures SearchFields(NormalizeQuery(q)) == SearchFields(q)
  {
    forall key
      ensures SearchValue(NormalizeQuery(q), key) == SearchValue(q, key)
    {
    }
  }

  // ----- file parts -----

  /** One file attachment of a multipart request: its field name and path. */
  datatype FilePart = FilePart(field: string, path: string)

  /** Every image, in order, under the `images` field; none when the list is
      null or empty. */
  function ImageParts(images: Option<seq<string>>): (parts: seq<FilePart>)
    ensures images.None? ==> parts == []
    ensures images.Some? ==> |parts| == |images.value|
    ensures images.Some? ==> forall i :: 0 <= i < |parts| ==> parts[i] == FilePart("images", images.value[i])
  {
    if images.Some? && |images.value| > 0 then
      seq(|images.value|, i requires 0 <= i < |images.value| => FilePart("images", images.value[i]))
    else []
  }
}

=== FILE: text.dfy ===
/** String operations the client relies on: Dart's `replaceFirst` with an empty
    replacement, `List.join`, and `int.toString`, each with a reference
    definition or an inverse it is proved against. */
module Text {
  import opened Wrappers

  /** `p` occurs in `s` starting at index `i`. */
  predicate OccursAt(s: string, p: string, i: int) {
    0 <= i && i + |p| <= |s| && s[i..i + |p|] == p
  }

  ghost predicate Contains(s: string, p: string) {
    exists i :: OccursAt(s, p, i)
  }

  /** `k` is the leftmost index at which `p` occurs in `s`. */
  ghost predicate IsFirstOccurrence(s: string, p: string, k: int) {
    OccursAt(s, p, k) && forall j :: 0 <= j < k ==> !OccursAt(s, p, j)
  }

  /** Dart's `s.replaceFirst(p, '')`: removes the leftmost occurrence of `p`,
      wherever it is, and leaves `s` alone when `p` does not occur. */
  function RemoveFirst(s: string, p: string): (r: string)
    ensures |r| == |s| || |r| == |s| - |p|
    decreases |s|
  {
    if p <= s then s[|p|..]
    else if |s| == 0 then s
    else [s[0]] + RemoveFirst(s[1..], p)
  }

  lemma ShiftOccurrence(s: string, p: string, j: int)
    requires |s| > 0 && 0 <= j
    ensures OccursAt(s[1..], p, j) <==> OccursAt(s, p, j + 1)
  {
    if j + |p| <= |s| - 1 {
      assert s[1..][j..j + |p|] == s[j + 1..j + 1 + |p|];
    }
  }

  /** Removing the first occurrence splices it out of the text. */
  lemma {:induction false} RemoveFirstAtFirstOccurrence(s: string, p: string, k: int)
    requires IsFirstOccurrence(s, p, k)
    ensures RemoveFirst(s, p) == s[..k] + s[k + |p|..]
    decreases k
  {
    if k == 0 {
      assert p <= s;
    } else {
      assert !OccursAt(s, p, 0);
      assert !(p <= s);
      forall j | 0 <= j < k - 1
        ensures !OccursAt(s[1..], p, j)
      {
        ShiftOccurrence(s, p, j);
      }
      ShiftOccurrence(s, p, k - 1);
      RemoveFirstAtFirstOccurrence(s[1..], p, k - 1);
      assert s[1..][..k - 1] == s[1..k];
      assert s[1..][k - 1 + |p|..] == s[k + |p|..];
      assert [s[0]] + s[1..k] == s[..k];
    }
  }

  /** A text in which `p` does not occur comes back unchanged. */
  lemma {:induction false} RemoveFirstWithoutOccurrence(s: string, p: string)
    requires !Contains(s, p)
    ensures RemoveFirst(s, p) == s
    decreases |s|
  {
    if p <= s {
      assert OccursAt(s, p, 0);
    } else if |s| > 0 {
      forall j | 0 <= j
        ensures !OccursAt(s[1..], p, j)
      {
        ShiftOccurrence(s, p, j);
      }
      RemoveFirstWithoutOccurrence(s[1..], p);
    }
  }

  lemma RemoveFirstKeepsUnmatched(s: string, p: string)
    ensures !Contains(s, p) ==> RemoveFirst(s, p) == s
  {
    if !Contains(s, p) {
      RemoveFirstWithoutOccurrence(s, p);
    }
  }

  /** The scan `replaceFirst` performs: the leftmost match position, if any,
      which is exactly the piece `RemoveFirst` cuts out. */
  method IndexOf(s: string, p: string) returns (k: Option<nat>)
    ensures k.Some? ==> IsFirstOccurrence(s, p, k.value)
    ensures k.None? ==> !Contains(s, p)
    ensures k.Some? ==> k.value + |p| <= |s| && RemoveFirst(s, p) == s[..k.value] + s[k.value + |p|..]
    ensures k.None? ==> RemoveFirst(s, p) == s
  {
    k := None;
    if |p| <= |s| {
      var i := 0;
      while i + |p| <= |s| && k.None?
        invariant 0 <= i <= |s| - |p| + 1
        invariant k.None? ==> forall j :: 0 <= j < i ==> !OccursAt(s, p, j)
        invariant k.Some? ==> IsFirstOccurrence(s, p, k.value)
        decreases |s| - i, if k.None? then 1 else 0
      {
        if s[i..i + |p|] == p {
          k := Some(i);
        } else {
          i := i + 1;
        }
      }
    }
    if k.Some? {
      RemoveFirstAtFirstOccurrence(s, p, k.value);
    } else {
      RemoveFirstWithoutOccurrence(s, p);
    }
  }

  // ----- List.join and its inverse -----

  /** Dart's `xs.join(sep)` for a one-character separator. */
  function Join(xs: seq<string>, sep: char): (r: string)
    // the first item leads the text
    ensures |xs| >= 1 ==> xs[0] <= r
  {
    if |xs| == 0 then ""
    else if |xs| == 1 then xs[0]
    else xs[0] + [sep] + Join(xs[1..], sep)
  }

  /** With separator-free items, the joined text holds exactly one separator
      between each pair of neighbouring items. */
  lemma {:induction false} JoinSeparators(xs: seq<string>, sep: char)
    requires forall i :: 0 <= i < |xs| ==> sep !in xs[i]
    ensures multiset(Join(xs, sep))[sep] == if |xs| == 0 then 0 else |xs| - 1
    decreases |xs|
  {
    if |xs| >= 2 {
      JoinSeparators(xs[1..], sep);
      assert multiset(xs[0])[sep] == 0;
      assert multiset(xs[0] + [sep] + Join(xs[1..], sep))
          == multiset(xs[0]) + multiset([sep]) + multiset(Join(xs[1..], sep));
    } else if |xs| == 1 {
      assert multiset(xs[0])[sep] == 0;
    }
  }

  /** Cuts `s` at every `sep`; the reference inverse of `Join`. */
  function Split(s: string, sep: char): (parts: seq<string>)
    ensures |parts| >= 1
    ensures forall i :: 0 <= i < |parts| ==> sep !in parts[i]
    decreases |s|
  {
    if |s| == 0 then [""]
    else
      var rest := Split(s[1..], sep);
      if s[0] == sep then [""] + rest
      else [[s[0]] + rest[0]] + rest[1..]
  }

  lemma {:induction false} SplitWithoutSeparator(a: string, sep: char)
    requires sep !in a
    ensures Split(a, sep) == [a]
    decreases |a|
  {
    if |a| > 0 {
      SplitWithoutSeparator(a[1..], sep);
      assert [a[0]] + a[1..] == a;
    }
  }

  lemma {:induction false} SplitAfterPiece(a: string, b: string, sep: char)
    requires sep !in a
    ensures Split(a + [sep] + b, sep) == [a] + Split(b, sep)
    decreases |a|
  {
    var s := a + [sep] + b;
    if |a| == 0 {
      assert s[1..] == b;
    } else {
      assert s[1..] == a[1..] + [sep] + b;
      SplitAfterPiece(a[1..], b, sep);
      assert [a[0]] + a[1..] == a;
    }
  }

  /** Joining pieces free of the separator and splitting again gives them back. */
  lemma {:induction false} SplitJoin(xs: seq<string>, sep: char)
    requires |xs| >= 1
    requires forall i :: 0 <= i < |xs| ==> sep !in xs[i]
    ensures Split(Join(xs, sep), sep) == xs
    decreases |xs|
  {
    if |xs| == 1 {
      SplitWithoutSeparator(xs[0], sep);
    } else {
      SplitJoin(xs[1..], sep);
      SplitAfterPiece(xs[0], Join(xs[1..], sep), sep);
      assert [xs[0]] + xs[1..] == xs;
    }
  }

  lemma JoinCons(x: string, rest: seq<string>, sep: char)
    requires |rest| >= 1
    ensures Join([x] + rest, sep) == x + [sep] + Join(rest, sep)
  {
    assert ([x] + rest)[1..] == rest;
  }

  /** Splitting and joining again reproduces any text. */
  lemma {:induction false} JoinSplit(s: string, sep: char)
    ensures Join(Split(s, sep), sep) == s
    decreases |s|
  {
    if |s| > 0 {
      var rest := Split(s[1..], sep);
      var parts := Split(s, sep);
      JoinSplit(s[1..], sep);
      if s[0] == sep {
        assert parts == [""] + rest;
        JoinCons("", rest, sep);
        assert [sep] + s[1..] == s;
      } else {
        assert parts == [[s[0]] + rest[0]] + rest[1..];
        if |rest| == 1 {
          assert [s[0]] + rest[0] == s;
        } else {
          JoinCons([s[0]] + rest[0], rest[1..], sep);
          assert rest == [rest[0]] + rest[1..];
          JoinCons(rest[0], rest[1..], sep);
          assert [s[0]] + rest[0] + [sep] + Join(rest[1..], sep) == [s[0]] + s[1..];
          assert [s[0]] + s[1..] == s;
        }
      }
    }
  }

  // ----- int.toString and its inverse -----

  predicate IsDigit(c: char) {
    '0' <= c <= '9'
  }

  predicate AllDigits(s: string) {
    forall i :: 0 <= i < |s| ==> IsDigit(s[i])
  }

  function DigitChar(d: int): (c: char)
    requires 0 <= d < 10
    ensures IsDigit(c) && c as int - '0' as int == d
  {
    (d + '0' as int) as char
  }

  /** Decimal digits of a natural number, most significant first. */
  function NatToDecimal(n: nat): (r: string)
    ensures |r| >= 1 && AllDigits(r)
    // canonical: no leading zero except for zero itself
    ensures n > 0 ==> r[0] != '0'
    ensures n == 0 ==> r == "0"
    decreases n
  {
    if n < 10 then [DigitChar(n)]
    else NatToDecimal(n / 10) + [DigitChar(n % 10)]
  }

  /** Dart's `int.toString()`: a leading `-` for negative values. */
  function IntToDecimal(n: int): (r: string)
    ensures |r| >= 1
    ensures r[0] == '-' <==> n < 0
    ensures n >= 0 ==> AllDigits(r)
    ensures n < 0 ==> |r| >= 2 && AllDigits(r[1..])
    // no leading zeros, and never "-0"
    ensures |r| == 1 || (r[0] != '0' && (r[0] == '-' ==> r[1] != '0'))
  {
    if n < 0 then "-" + NatToDecimal(-n) else NatToDecimal(n)
  }

  function DecimalValue(s: string): nat
    requires AllDigits(s)
    decreases |s|
  {
    if |s| == 0 then 0
    else DecimalValue(s[..|s| - 1]) * 10 + (s[|s| - 1] as int - '0' as int)
  }

  /** Reads an optionally negative decimal numeral; the reference inverse of `IntToDecimal`. */
  function ParseDecimal(s: string): Option<int> {
    if |s| > 1 && s[0] == '-' && AllDigits(s[1..]) then Some(0 - DecimalValue(s[1..]) as int)
    else if |s| > 0 && AllDigits(s) then Some(DecimalValue(s))
    else None
  }

  lemma {:induction false} NatDecimalRoundTrip(n: nat)
    ensures DecimalValue(NatToDecimal(n)) == n
    decreases n
  {
    if n >= 10 {
      var front := NatToDecimal(n / 10);
      var s := front + [DigitChar(n % 10)];
      assert s[..|s| - 1] == front;
      NatDecimalRoundTrip(n / 10);
    }
  }

  lemma ParseDigits(d: string)
    requires |d| >= 1 && AllDigits(d)
    ensures ParseDecimal(d) == Some(DecimalValue(d) as int)
  {
    assert IsDigit(d[0]);
  }

  lemma ParseNegatedDigits(d: string)
    requires |d| >= 1 && AllDigits(d)
    ensures ParseDecimal("-" + d) == Some(0 - DecimalValue(d) as int)
  {
    var s := "-" + d;
    assert s[1..] == d;
    assert |s| > 1 && s[0] == '-';
  }

  /** The decimal text of an age reads back as the same number. */
  lemma IntDecimalRoundTrip(n: int)
    ensures ParseDecimal(IntToDecimal(n)) == Some(n)
  {
    if n < 0 {
      NatDecimalRoundTrip(-n);
      ParseNegatedDigits(NatToDecimal(-n));
    } else {
      NatDecimalRoundTrip(n);
      ParseDigits(NatToDecimal(n));
    }
  }
}

=== FILE: wrappers.dfy ===
/** The two shapes every fallible step of the client takes. */
module Wrappers {

  /** A Dart nullable value: absent, or present with its value. */
  datatype Option<+T> = None | Some(value: T)

  /** The outcome of a step that may throw: its value, or the error it throws.
      The three members below let `:-` stop at the first thrown error. */
  datatype Result<+R, +E> = Success(value: R) | Failure(error: E) {

    predicate IsFailure() {
      Failure?
    }

    function PropagateFailure<U>(): Result<U, E>
      requires Failure?
    {
      Failure(error)
    }

    function Extract(): R
      requires Success?
    {
      value
    }
  }
}
